=== FILE: README.md ===
# Pipeline filter expressions, in Dafny

This project models the filter-expression library of the loan-pipeline console
application (`ConsoleApp1/PipelineFilter.cs`). The library builds boolean filter
trees for a remote loan-pipeline query, wraps one in a request, and writes the request
out as JSON. The model covers these parts:

- **Enum codec** (`enums.dfy`). The four closed enumerations are `MatchType`,
  `LogicalOperator`, `DatePrecision` and `SortOrder`. The generic converter writes the
  whole symbolic name in lower case and reads a token back by a case-insensitive name
  match. Where no name matches, `Enum.Parse` throws an `ArgumentException`
  (PipelineFilter.cs:62); the model returns that throw as the error value
  `UnknownEnumToken`.
- **Filter tree** (`filters.dfy`). One datatype has six constructors: the string, date,
  empty-value, not-empty-value and multi-value leaves, and the composite node. The
  composite holds an operator and an ordered, mixed list of terms. The string leaf's
  include flag defaults to absent and the date leaf's precision to `Day`, as in the
  constructors at PipelineFilter.cs:101 and 117. The file also has the leaf
  constructors that compute something: a date leaf from a calendar date, and a
  multi-value leaf from a possibly absent list.
- **Combination algebra** (`filters.dfy`, `meaning.dfy`). `And`/`Or` on a leaf builds
  a new two-term composite. On a composite with the same operator they append the term
  (flattening). With the other operator they wrap the composite as one term (nesting).
  An absent term leaves a composite unchanged. `meaning.dfy` gives the boolean meaning
  the model assumes for a tree. The algebra is proved to compute conjunction and
  disjunction under that meaning.
- **Date text** (`dates.dfy`). `yyyy-MM-dd`, `yyyy-MM` or `yyyy` is chosen by
  precision. Every other precision falls back to the day format.
- **Request envelope and serialisation** (`request.dfy`, `json.dfy`, `serializer.dfy`).
  The request holds the filter, a field list, at most one sort criterion and the
  archive flag. It is written as a JSON value: objects are ordered key/value lists,
  plus arrays, strings and booleans. A null member is left out: the filter, or a string
  leaf's include flag. So is an empty field or sort list. An empty multi-value list or
  term list is still written, as `[]`.
- **Reading the wire back** (`reader.dfy`). The library reads enum tokens but has no
  reader for filters or requests. This reader is the inverse the writer is proved
  against: reading a written filter or request gives it back. The one exception is
  that an empty or not-empty leaf comes back as the string leaf with identical members.
- **Demo scenario** (`scenarios.dfy`). The filter combination and the request of
  `ConsoleApp1/Program.cs`, with the run date fixed to 15 January 2025.

`wrappers.dfy` (Option/Result) and `text.dfy` (ASCII lower-casing, case-insensitive
equality) are helpers.

Three facts about the code shape the model:
- The request has exactly the members `filter`, `fields`, `sort` and
  `includeArchivedLoans`, and one constructor. The constructor takes a filter, an
  optional field array, one optional sort criterion and the archive flag
  (PipelineFilter.cs:210-233).
- The empty and not-empty leaves carry the value `"0001-01-01T00:00:00"`
  (PipelineFilter.cs:140, 150).
- The enum round trip is `encode(decode(t)) == lower(t)`, so a token that is not
  already lower-case does not come back unchanged.

## Model

| member | source | states |
|---|---|---|
| EnumCodec.Encode | ConsoleApp1/PipelineFilter.cs:64-65 | The written token has no upper-case letter, is as long as the symbolic name, and equals the name ignoring case (no separators are inserted). |
| EnumCodec.FindByName | ConsoleApp1/PipelineFilter.cs:61-62 | Finds a member exactly when some member's name equals the token ignoring case; what it finds is such a member. |
| EnumCodec.FindByNameFirst | ConsoleApp1/PipelineFilter.cs:61-62 | What is found is the first matching member in declaration order: no earlier member's name equals the token ignoring case. |
| EnumCodec.Decode | ConsoleApp1/PipelineFilter.cs:61-62 | Reading succeeds exactly when some member's name equals the token ignoring case, and yields such a member; otherwise it fails with `UnknownEnumToken` carrying the token. |
| EnumCodec.DecodeIff | ConsoleApp1/PipelineFilter.cs:61-62 | For an enumeration whose names are distinct ignoring case, reading a token yields member e if and only if e's name equals the token ignoring case. |
| EnumCodec.DecodeEncode | ConsoleApp1/PipelineFilter.cs:59-66 | Reading back a written token gives the member that was written. |
| EnumCodec.EncodeDecode | ConsoleApp1/PipelineFilter.cs:59-66 | Writing the member a token reads as gives the token lower-cased. |
| EnumCodec.EncodeInjective | ConsoleApp1/PipelineFilter.cs:64-65 | Distinct members of an enumeration are written as distinct tokens. |
| EnumCodec.MatchTypeCodecSound | ConsoleApp1/PipelineFilter.cs:6-20 | The twelve match types are all listed and their names are distinct ignoring case. |
| EnumCodec.LogicalOperatorCodecSound | ConsoleApp1/PipelineFilter.cs:22-26 | The two operators are all listed and their names are distinct ignoring case. |
| EnumCodec.DatePrecisionCodecSound | ConsoleApp1/PipelineFilter.cs:28-36 | The six precisions are all listed and their names are distinct ignoring case. |
| EnumCodec.SortOrderCodecSound | ConsoleApp1/PipelineFilter.cs:38-42 | The two sort orders are all listed and their names are distinct ignoring case. |
| EnumCodec.AllEnumsRoundTrip | ConsoleApp1/PipelineFilter.cs:44-66 | decode(encode(e)) == e for every member of all four enumerations the converters are registered for. |
| Dates.PaddedRoundTrip | ConsoleApp1/PipelineFilter.cs:129-131 | A number written zero-padded to a width it fits reads back as the same number. |
| Dates.FormatDate | ConsoleApp1/PipelineFilter.cs:127-133 | The text is 4 characters long for year precision, 7 for month, and 10 for day and for every other precision. Its digit fields read back as the date's year, month and day, separated by `-`. |
| Dates.FormatsNest | ConsoleApp1/PipelineFilter.cs:127-133 | The year text is a prefix of the month text, which is a prefix of the day text. Recurring, hour and minute precision give exactly the day text. |
| Dates.DayFormatInjective | ConsoleApp1/PipelineFilter.cs:129 | Two valid dates with the same day text are the same date. |
| Filters.Filter.Combine | ConsoleApp1/PipelineFilter.cs:181-201 | The result is always a composite. A leaf (lines 89-90), or a composite under the other operator, becomes the first of exactly two terms `[self, x]` under the requested operator. A composite under the same operator keeps its operator and gains exactly one term: the old terms stay first, in order, and x comes last. A composite given no term is returned unchanged. |
| Filters.Filter.And | ConsoleApp1/PipelineFilter.cs:187-193 | A leaf or an `Or` composite gives `And[self, x]`. An `And` composite gives `And[terms ++ [x]]`. A composite given no term is unchanged. |
| Filters.Filter.Or | ConsoleApp1/PipelineFilter.cs:195-201 | A leaf or an `And` composite gives `Or[self, x]`. An `Or` composite gives `Or[terms ++ [x]]`. A composite given no term is unchanged. |
| Filters.NewDateFilterFromDate | ConsoleApp1/PipelineFilter.cs:124-125 | A date leaf with the given name, match type and precision, whose value is the date formatted at that precision. |
| Filters.NewMultiValueFilter | ConsoleApp1/PipelineFilter.cs:165-170 | The match type is always `MultiValue`. An absent value list becomes the empty list. The include flag is the one given, true by default. |
| Filters.NewCompositeFilter | ConsoleApp1/PipelineFilter.cs:181-185 | A composite with the given operator; an absent term array gives no terms. |
| Filters.ChainFlattens | ConsoleApp1/PipelineFilter.cs:187-201 | A same-operator chain started from a leaf, `a.op(b).op(c)…`, is one flat composite holding every term in insertion order. |
| Filters.MixedOperatorsNest | ConsoleApp1/PipelineFilter.cs:187-201 | For a leaf `a`, `a.And(b).Or(c)` is `Or[And[a, b], c]` and `a.Or(b).And(c)` is `And[Or[a, b], c]`: mixed operators nest and never merge. |
| Meaning.AndIsConjunction | ConsoleApp1/PipelineFilter.cs:187-193 | Under the boolean meaning of a tree, `f.And(x)` holds exactly when f holds and x (when present) holds, for leaves and composites alike. |
| Meaning.OrIsDisjunction | ConsoleApp1/PipelineFilter.cs:195-201 | Under the boolean meaning of a tree, `f.Or(x)` holds exactly when f holds or x (when present) holds. |
| Request.LoanPipelineRequest.Fields | ConsoleApp1/PipelineFilter.cs:218-219 | The field list is exposed as absent exactly when it is empty, and otherwise as the stored list. |
| Request.LoanPipelineRequest.Sort | ConsoleApp1/PipelineFilter.cs:221-222 | The sort list is exposed as absent exactly when it is empty, and otherwise as the stored list. |
| Request.NewRequest | ConsoleApp1/PipelineFilter.cs:227-233 | Keeps the filter and the archive flag. Fields are exposed exactly when a non-empty array is given. The sort list has at most one element, and is exposed as `[criterion]` exactly when a criterion is given. |
| Json.OptionalMember | ConsoleApp1/PipelineFilter.cs:49 | An absent value writes no member at all; a present one writes exactly one member under its key. |
| Json.OptionalMemberReadsBack | ConsoleApp1/PipelineFilter.cs:49 | Looking the key up in the written member reads back exactly the value given, so a null value and a missing member read the same. |
| Serializer.FilterToJson | ConsoleApp1/PipelineFilter.cs:75-202 | Every filter node is written as a JSON object with no key twice. |
| Serializer.LeafMembers | ConsoleApp1/PipelineFilter.cs:75-87 | Every leaf, and only a leaf, writes `matchType`, `canonicalName` and `value`. |
| Serializer.OptionalMembers | ConsoleApp1/PipelineFilter.cs:93-171 | `include` is written for a multi-value leaf always, and for a string leaf exactly when its nullable flag is set. `precision` is written exactly on date leaves. |
| Serializer.CompositeMembers | ConsoleApp1/PipelineFilter.cs:173-179 | A composite, and only a composite, writes `operator` and `terms`. |
| Serializer.LeafValues | ConsoleApp1/PipelineFilter.cs:93-171 | A leaf's members hold its own data: the match-type token, the name, the value (a string, or an array of the multi-value list), the include flag and the precision token. |
| Serializer.CompositeValues | ConsoleApp1/PipelineFilter.cs:173-179 | A composite writes its operator token and its terms' objects in order. |
| Serializer.EmptyListsWritten | ConsoleApp1/PipelineFilter.cs:157-185 | An empty multi-value list is written as `"value": []` and an empty term list as `"terms": []`; neither is left out. |
| Serializer.CombineOnTheWire | ConsoleApp1/PipelineFilter.cs:187-201 | When the operator matches, flattening appends the new term's object to the written `terms` array. Otherwise nesting writes `[old composite, new term]`. Either way `operator` is the requested operator's token. |
| Serializer.SortCriterionToJson | ConsoleApp1/PipelineFilter.cs:205-207 | A sort element is an object whose keys are exactly `canonicalName` and `order`, with no key twice. `canonicalName` holds the name and `order` holds the lower-cased order token. |
| Serializer.RequestToJson | ConsoleApp1/PipelineFilter.cs:210-225 | The request object has no key twice, and only `filter`, `fields`, `sort` and `includeArchivedLoans` as keys. |
| Serializer.RequestMembers | ConsoleApp1/PipelineFilter.cs:215-225 | `filter` is written exactly when there is a filter, `fields` / `sort` exactly when the list is non-empty, and `includeArchivedLoans` always. Each holds the request's own data. |
| Serializer.NewRequestOnTheWire | ConsoleApp1/PipelineFilter.cs:227-233 | For the constructor: no `filter` key for a null filter, no `fields` key for a null or empty array, no `sort` key without a criterion (with one, a one-element array), and `includeArchivedLoans` always holding the flag. |
| Reader.ReadWrittenFilter | ConsoleApp1/PipelineFilter.cs:75-202 | Reading a written filter tree gives the tree back. The only exception is that empty / not-empty leaves come back as the string leaves they look like on the wire. |
| Reader.WireFormKeepsWire | ConsoleApp1/PipelineFilter.cs:137-154 | Replacing empty / not-empty leaves by string leaves with the same match type and sentinel value changes nothing in the JSON. |
| Reader.WireDeterminesFilter | ConsoleApp1/PipelineFilter.cs:75-202 | Two filters written as the same JSON have the same wire form. Without empty / not-empty leaves they are equal. |
| Reader.FixedLeavesOnTheWire | ConsoleApp1/PipelineFilter.cs:137-170 | The empty leaf always reads back with match type `IsEmpty` and value `"0001-01-01T00:00:00"`, the not-empty leaf with `IsNotEmpty` and the same value. The multi-value leaf's match type always reads back as `MultiValue`. |
| Reader.ReadSortCriterionWritten | ConsoleApp1/PipelineFilter.cs:205-207 | A written sort element reads back as the same criterion, name and order. |
| Reader.ReadWrittenRequest | ConsoleApp1/PipelineFilter.cs:210-233 | Reading a written request gives back its field list, sort list and archive flag, and its filter in wire form. |
| Scenarios.DemoCombination | ConsoleApp1/Program.cs:20-21 | The demo's `f4.Or(f6).Or(f5)` is `Or[f4, f6, f5]` (insertion order). The and-chain over it is the flat `And[f1, f2, f3, Or[f4, f6, f5], f7, f8]`, with the `Or` composite kept whole. |
| Scenarios.DemoDateText | ConsoleApp1/Program.cs:12 | The demo's day-precision date leaf for 15 January 2025 carries `2025-01-15`. |
| Scenarios.DemoStringLeafKeys | ConsoleApp1/Program.cs:11 | The demo's string leaf is built without an include flag (the constructor default, PipelineFilter.cs:101). It is written with exactly the keys `matchType`, `canonicalName` and `value`, in some order, and no `include`. |
| Scenarios.DemoStringLeaf | ConsoleApp1/Program.cs:11 | The demo's string leaf writes `matchType` `equals`, its name and its value. |
| Scenarios.MultiValueToken | ConsoleApp1/PipelineFilter.cs:64-65 | `MultiValue` is written as `multivalue`. |
| Scenarios.DemoMultiValueLeaf | ConsoleApp1/Program.cs:13 | The demo's multi-value leaf is written with `matchType` `multivalue` and `include` false. |
| Scenarios.DemoMultiValueStates | ConsoleApp1/Program.cs:13 | The demo's multi-value leaf writes `["CA", "TX", "NY"]` in that order. |
| Scenarios.DemoRequest | ConsoleApp1/Program.cs:25-26 | Whatever the combined filter, the demo request writes that filter's object under `filter`, the two fields in order, no `sort` member, and `includeArchivedLoans` true. |

## Left out

- JSON text. The model writes a JSON value, not bytes. Left out are indentation (the
  `indented` argument of `ToJson`), string escaping and the copying of serializer
  options (PipelineFilter.cs:46-57, 235-242).
- Member order in objects. The library, not the source, decides the order under
  record inheritance; by default it most likely writes a derived record's own
  properties before the inherited `matchType` and `canonicalName`. The model writes
  one fixed order: the declaration order, base members first. The laws in the table
  above speak only of which keys are present and what they hold. The helper lemmas
  `Serializer.WrittenKeysAre` and `Serializer.RequestLayout` pin the model's own order
  and are not claims about the library's.
- EnumCodec.Decode: reads names only. `Enum.Parse` also accepts numeric strings,
  comma-separated flag lists and surrounding white space; those tokens fail in the
  model. A JSON `null` token is not modelled.
- EnumCodec.Decode: folds case on ASCII letters only. The member names are ASCII, but
  the runtime's ordinal case-insensitive match may also fold some non-ASCII letters to
  ASCII ones.
- Null strings. The ignore-when-null option (PipelineFilter.cs:49) drops only null
  properties. A null name or value would be left out of its object. A null element of
  the field array (lines 227, 230) or of a multi-value list (line 168) would still be
  written, as a JSON `null` inside the array. The model has no null strings and no
  JSON `null`, so it has neither case.
- Non-filter terms. The composite's terms are typed `object` (a `params object[]`), so
  arbitrary objects or null elements could be stored. The model's terms are filters.
- `with` expressions and `init` setters on the records. These could overwrite the
  fixed match type or sentinel value. The model fixes them by construction.
- Leaf `And`/`Or` with a null argument. The code does not guard this and would store a
  null term. It is a precondition of `Filters.Filter.Combine`, `And` and `Or`, not
  modelled behaviour.
- Object identity. The composite `And`/`Or` given a null term returns the same object;
  the model returns an equal value.
- `DateTime`. The model has only the year, month and day. The time of day, culture and
  calendar behaviour of `ToString` are left out; the model uses the Gregorian calendar
  with ASCII digits.
- Evaluation. The library never evaluates filters. `Meaning.Holds` is the reference
  meaning the algebra is checked against, with each leaf decided by a parameter that
  stands for the remote system.
- `ConsoleApp1/Program.cs` console I/O and `DateTime.Today`. Only the filter
  combination and the request of the demo are modelled, with a fixed date. Its
  commented-out converter is dead code.
- `ConsoleApp1/test.cs`: an attribute/reflection experiment unrelated to the filter
  library.

=== FILE: dates.dfy ===
/** Calendar dates and the precision-dependent text a date filter carries
    (`yyyy-MM-dd`, `yyyy-MM` or `yyyy`, Gregorian calendar). */
module Dates {
  import opened EnumCodec

  /** A calendar date; the time of day never reaches the formatted text. */
  datatype Date = Date(year: int, month: int, day: int)

  predicate IsLeapYear(y: int)
  {
    y % 4 == 0 && (y % 100 != 0 || y % 400 == 0)
  }

  function DaysInMonth(y: int, m: int): int
    requires 1 <= m <= 12
  {
    if m == 2 then (if IsLeapYear(y) then 29 else 28)
    else if m == 4 || m == 6 || m == 9 || m == 11 then 30
    else 31
  }

  /** The dates a date-time value can hold: years 1 to 9999. */
  predicate Valid(d: Date)
  {
    && 1 <= d.year <= 9999
    && 1 <= d.month <= 12
    && 1 <= d.day <= DaysInMonth(d.year, d.month)
  }

  // ----- zero-padded decimal digits -----

  function Pow10(n: nat): nat
  {
    if n == 0 then 1 else 10 * Pow10(n - 1)
  }

  predicate IsDigits(s: string)
  {
    forall i :: 0 <= i < |s| ==> '0' <= s[i] <= '9'
  }

  /** The number a string of decimal digits spells. */
  function DecimalValue(s: string): nat
    requires IsDigits(s)
  {
    if |s| == 0 then 0 else 10 * DecimalValue(s[..|s| - 1]) + (s[|s| - 1] as int - '0' as int)
  }

  /** `n` written in exactly `width` decimal digits, with leading zeros. */
  function Padded(n: nat, width: nat): (r: string)
    ensures |r| == width
    ensures IsDigits(r)
  {
    if width == 0 then [] else Padded(n / 10, width - 1) + [('0' as int + n % 10) as char]
  }

  /** Reading the padded digits back gives the number, whenever it fits the width. */
  lemma {:induction false} PaddedRoundTrip(n: nat, width: nat)
    requires n < Pow10(width)
    ensures DecimalValue(Padded(n, width)) == n
  {
    if width > 0 {
      var r := Padded(n, width);
      assert r[..|r| - 1] == Padded(n / 10, width - 1);
      assert r[|r| - 1] as int - '0' as int == n % 10;
      PaddedRoundTrip(n / 10, width - 1);
    }
  }

  // ----- the date formats -----

  function YearText(d: Date): (r: string)
    requires Valid(d)
    ensures |r| == 4 && IsDigits(r) && DecimalValue(r) == d.year
  {
    PaddedRoundTrip(d.year, 4);
    Padded(d.year, 4)
  }

  function MonthText(d: Date): (r: string)
    requires Valid(d)
    ensures |r| == 2 && IsDigits(r) && DecimalValue(r) == d.month
  {
    PaddedRoundTrip(d.month, 2);
    Padded(d.month, 2)
  }

  function DayText(d: Date): (r: string)
    requires Valid(d)
    ensures |r| == 2 && IsDigits(r) && DecimalValue(r) == d.day
  {
    PaddedRoundTrip(d.day, 2);
    Padded(d.day, 2)
  }

  /** `yyyy-MM` */
  function MonthFormat(d: Date): (r: string)
    requires Valid(d)
    ensures |r| == 7
    ensures r[..4] == YearText(d) && r[4] == '-' && r[5..7] == MonthText(d)
  {
    YearText(d) + "-" + MonthText(d)
  }

  /** `yyyy-MM-dd` */
  function DayFormat(d: Date): (r: string)
    requires Valid(d)
    ensures |r| == 10
    ensures r[..7] == MonthFormat(d)
    ensures r[..4] == YearText(d) && r[4] == '-' && r[5..7] == MonthText(d)
    ensures r[7] == '-' && r[8..10] == DayText(d)
  {
    MonthFormat(d) + "-" + DayText(d)
  }

  /** The value text of a date filter built from a date: `yyyy-MM-dd` for day precision,
      `yyyy-MM` for month, `yyyy` for year, and `yyyy-MM-dd` for every other precision.
      Each field reads back as the date's own year, month and day. */
  function FormatDate(d: Date, p: DatePrecision): (r: string)
    requires Valid(d)
    ensures p == Year ==> |r| == 4
    ensures p == Month ==> |r| == 7
    ensures p != Year && p != Month ==> |r| == 10
    ensures IsDigits(r[..4]) && DecimalValue(r[..4]) == d.year
    ensures p != Year ==> r[4] == '-' && IsDigits(r[5..7]) && DecimalValue(r[5..7]) == d.month
    ensures p != Year && p != Month ==> r[7] == '-' && IsDigits(r[8..10]) && DecimalValue(r[8..10]) == d.day
  {
    if p == Year then
      var r := YearText(d);
      assert r[..4] == r;
      r
    else if p == Month then MonthFormat(d)
    else DayFormat(d)
  }

  /** The coarser formats are prefixes of the finer ones, and the precisions without a
      format of their own (recurring, hour, minute) give exactly the day format. */
  lemma FormatsNest(d: Date, p: DatePrecision)
    requires Valid(d)
    ensures FormatDate(d, Year) == FormatDate(d, Month)[..4]
    ensures FormatDate(d, Month) == FormatDate(d, Day)[..7]
    ensures p != Year && p != Month ==> FormatDate(d, p) == FormatDate(d, Day)
  {
    var m := FormatDate(d, Month);
    assert m[..4] == YearText(d);
  }

  /** The day format determines the date: two dates with the same text are the same date. */
  lemma DayFormatInjective(d1: Date, d2: Date)
    requires Valid(d1) && Valid(d2)
    requires FormatDate(d1, Day) == FormatDate(d2, Day)
    ensures d1 == d2
  {
  }
}

=== FILE: enums.dfy ===
/** The four closed enumerations of the filter library and the converter that puts
    them on the wire: the whole symbolic name lower-cased on write, a case-insensitive
    name match on read. */
module EnumCodec {
  import opened Wrappers
  import opened Text

  datatype MatchType =
    | Equals | NotEquals | Contains | StartsWith | Exact
    | GreaterThan | GreaterThanOrEquals | LessThan | LessThanOrEquals
    | IsEmpty | IsNotEmpty | MultiValue

  datatype LogicalOperator = And | Or

  datatype DatePrecision = Day | Month | Year | Recurring | Hour | Minute

  datatype SortOrder = Ascending | Descending

  /** The read error: the token names no member of the enumeration. */
  datatype CodecError = UnknownEnumToken(token: string)

  // ----- symbolic names and member lists, in declaration order -----

  function MatchTypeName(m: MatchType): string
  {
    match m
    case Equals => "Equals"
    case NotEquals => "NotEquals"
    case Contains => "Contains"
    case StartsWith => "StartsWith"
    case Exact => "Exact"
    case GreaterThan => "GreaterThan"
    case GreaterThanOrEquals => "GreaterThanOrEquals"
    case LessThan => "LessThan"
    case LessThanOrEquals => "LessThanOrEquals"
    case IsEmpty => "IsEmpty"
    case IsNotEmpty => "IsNotEmpty"
    case MultiValue => "MultiValue"
  }

  const MatchTypes: seq<MatchType> :=
    [Equals, NotEquals, Contains, StartsWith, Exact, GreaterThan, GreaterThanOrEquals,
     LessThan, LessThanOrEquals, IsEmpty, IsNotEmpty, MultiValue]

  function LogicalOperatorName(o: LogicalOperator): string
  {
    match o
    case And => "And"
    case Or => "Or"
  }

  const LogicalOperators: seq<LogicalOperator> := [And, Or]

  function DatePrecisionName(p: DatePrecision): string
  {
    match p
    case Day => "Day"
    case Month => "Month"
    case Year => "Year"
    case Recurring => "Recurring"
    case Hour => "Hour"
    case Minute => "Minute"
  }

  const DatePrecisions: seq<DatePrecision> := [Day, Month, Year, Recurring, Hour, Minute]

  function SortOrderName(s: SortOrder): string
  {
    match s
    case Ascending => "Ascending"
    case Descending => "Descending"
  }

  const SortOrders: seq<SortOrder> := [Ascending, Descending]

  // ----- the generic converter -----

  /** Every value of the enumeration is listed among its members. */
  ghost predicate Lists<T(!new)>(members: seq<T>)
  {
    forall e: T :: e in members
  }

  /** No two members have names that are equal ignoring case, so a case-insensitive
      read can only ever mean one member. */
  ghost predicate NamesDistinct<T(!new)>(name: T -> string)
  {
    forall a: T, b: T :: EqualsIgnoreCase(name(a), name(b)) ==> a == b
  }

  /** Write: the symbolic name, lower-cased as a whole (no word separators). */
  function Encode<T>(name: T -> string, e: T): (token: string)
    ensures IsLowerCase(token)
    ensures |token| == |name(e)|
    ensures EqualsIgnoreCase(token, name(e))
  {
    LowerProperties(name(e));
    Lower(name(e))
  }

  /** Position k holds the first member, in declaration order, whose name equals the
      token ignoring case. */
  predicate FirstMatchAt<T>(members: seq<T>, name: T -> string, token: string, k: int)
  {
    && 0 <= k < |members|
    && EqualsIgnoreCase(name(members[k]), token)
    && forall i :: 0 <= i < k ==> !EqualsIgnoreCase(name(members[i]), token)
  }

  /** The first member, in declaration order, whose name equals the token ignoring case. */
  function FindByName<T>(members: seq<T>, name: T -> string, token: string): (r: Option<T>)
    ensures r.Some? ==> r.value in members && EqualsIgnoreCase(name(r.value), token)
    ensures r.None? <==> forall i :: 0 <= i < |members| ==> !EqualsIgnoreCase(name(members[i]), token)
  {
    if |members| == 0 then None
    else if EqualsIgnoreCase(name(members[0]), token) then Some(members[0])
    else
      var r := FindByName(members[1..], name, token);
      assert forall i :: 1 <= i < |members| ==> members[i] == members[1..][i - 1];
      r
  }

  /** What `FindByName` finds is the first match: it sits at a position with no earlier
      match. */
  lemma {:induction false} FindByNameFirst<T>(members: seq<T>, name: T -> string, token: string)
    ensures FindByName(members, name, token).Some? ==>
              exists k :: FirstMatchAt(members, name, token, k) &&
                          members[k] == FindByName(members, name, token).value
  {
    if |members| == 0 {
    } else if EqualsIgnoreCase(name(members[0]), token) {
      assert FirstMatchAt(members, name, token, 0);
    } else {
      var r := FindByName(members[1..], name, token);
      assert FindByName(members, name, token) == r;
      if r.Some? {
        FindByNameFirst(members[1..], name, token);
        var k :| FirstMatchAt(members[1..], name, token, k) && members[1..][k] == r.value;
        assert forall i :: 1 <= i < |members| ==> members[i] == members[1..][i - 1];
        assert FirstMatchAt(members, name, token, k + 1);
      }
    }
  }

  /** Read: a case-insensitive match against the member names; any other token fails. */
  function Decode<T>(members: seq<T>, name: T -> string, token: string): (r: Result<T, CodecError>)
    ensures r.Success? ==> r.value in members && EqualsIgnoreCase(name(r.value), token)
    ensures r.Failure? <==> forall e :: e in members ==> !EqualsIgnoreCase(name(e), token)
    ensures r.Failure? ==> r.error == UnknownEnumToken(token)
  {
    match FindByName(members, name, token)
    case Some(e) => Success(e)
    case None => Failure(UnknownEnumToken(token))
  }

  /** Reading a token succeeds exactly when some member's name equals it ignoring case,
      and then yields that member. */
  lemma {:induction false} DecodeIff<T(!new)>(members: seq<T>, name: T -> string, token: string, e: T)
    requires Lists(members)
    requires NamesDistinct(name)
    ensures Decode(members, name, token) == Success(e) <==> EqualsIgnoreCase(name(e), token)
  {
    var r := Decode(members, name, token);
    if EqualsIgnoreCase(name(e), token) {
      assert e in members;
      assert r.Success?;
      assert EqualsIgnoreCase(name(r.value), name(e));
    }
  }

  /** Reading back what was written gives the member that was written. */
  lemma {:induction false} DecodeEncode<T(!new)>(members: seq<T>, name: T -> string, e: T)
    requires Lists(members)
    requires NamesDistinct(name)
    ensures Decode(members, name, Encode(name, e)) == Success(e)
  {
    DecodeIff(members, name, Encode(name, e), e);
  }

  /** Writing what was read gives the token lower-cased. */
  lemma {:induction false} EncodeDecode<T>(members: seq<T>, name: T -> string, token: string)
    requires Decode(members, name, token).Success?
    ensures Encode(name, Decode(members, name, token).value) == Lower(token)
  {
  }

  /** Distinct members are written as distinct tokens. */
  lemma {:induction false} EncodeInjective<T(!new)>(name: T -> string, a: T, b: T)
    requires NamesDistinct(name)
    requires Encode(name, a) == Encode(name, b)
    ensures a == b
  {
    LowerProperties(name(a));
    LowerProperties(name(b));
  }

  // ----- the four instances -----

  lemma MatchTypeCodecSound()
    ensures Lists(MatchTypes)
    ensures NamesDistinct(MatchTypeName)
  {
    forall e: MatchType ensures e in MatchTypes {
      match e
      case Equals => assert MatchTypes[0] == e;
      case NotEquals => assert MatchTypes[1] == e;
      case Contains => assert MatchTypes[2] == e;
      case StartsWith => assert MatchTypes[3] == e;
      case Exact => assert MatchTypes[4] == e;
      case GreaterThan => assert MatchTypes[5] == e;
      case GreaterThanOrEquals => assert MatchTypes[6] == e;
      case LessThan => assert MatchTypes[7] == e;
      case LessThanOrEquals => assert MatchTypes[8] == e;
      case IsEmpty => assert MatchTypes[9] == e;
      case IsNotEmpty => assert MatchTypes[10] == e;
      case MultiValue => assert MatchTypes[11] == e;
    }
    forall a: MatchType, b: MatchType | EqualsIgnoreCase(MatchTypeName(a), MatchTypeName(b))
      ensures a == b
    {
      EqualsIgnoreCaseShape(MatchTypeName(a), MatchTypeName(b));
    }
  }

  lemma LogicalOperatorCodecSound()
    ensures Lists(LogicalOperators)
    ensures NamesDistinct(LogicalOperatorName)
  {
    forall e: LogicalOperator ensures e in LogicalOperators {
      match e
      case And => assert LogicalOperators[0] == e;
      case Or => assert LogicalOperators[1] == e;
    }
    forall a: LogicalOperator, b: LogicalOperator | EqualsIgnoreCase(LogicalOperatorName(a), LogicalOperatorName(b))
      ensures a == b
    {
      EqualsIgnoreCaseShape(LogicalOperatorName(a), LogicalOperatorName(b));
    }
  }

  lemma DatePrecisionCodecSound()
    ensures Lists(DatePrecisions)
    ensures NamesDistinct(DatePrecisionName)
  {
    forall e: DatePrecision ensures e in DatePrecisions {
      match e
      case Day => assert DatePrecisions[0] == e;
      case Month => assert DatePrecisions[1] == e;
      case Year => assert DatePrecisions[2] == e;
      case Recurring => assert DatePrecisions[3] == e;
      case Hour => assert DatePrecisions[4] == e;
      case Minute => assert DatePrecisions[5] == e;
    }
    forall a: DatePrecision, b: DatePrecision | EqualsIgnoreCase(DatePrecisionName(a), DatePrecisionName(b))
      ensures a == b
    {
      EqualsIgnoreCaseShape(DatePrecisionName(a), DatePrecisionName(b));
    }
  }

  lemma SortOrderCodecSound()
    ensures Lists(SortOrders)
    ensures NamesDistinct(SortOrderName)
  {
    forall e: SortOrder ensures e in SortOrders {
      match e
      case Ascending => assert SortOrders[0] == e;
      case Descending => assert SortOrders[1] == e;
    }
    forall a: SortOrder, b: SortOrder | EqualsIgnoreCase(SortOrderName(a), SortOrderName(b))
      ensures a == b
    {
      EqualsIgnoreCaseShape(SortOrderName(a), SortOrderName(b));
    }
  }

  /** decode(encode(e)) == e for every member of all four enumerations. */
  lemma AllEnumsRoundTrip(m: MatchType, o: LogicalOperator, p: DatePrecision, s: SortOrder)
    ensures Decode(MatchTypes, MatchTypeName, Encode(MatchTypeName, m)) == Success(m)
    ensures Decode(LogicalOperators, LogicalOperatorName, Encode(LogicalOperatorName, o)) == Success(o)
    ensures Decode(DatePrecisions, DatePrecisionName, Encode(DatePrecisionName, p)) == Success(p)
    ensures Decode(SortOrders, SortOrderName, Encode(SortOrderName, s)) == Success(s)
  {
    MatchTypeCodecSound();
    LogicalOperatorCodecSound();
    DatePrecisionCodecSound();
    SortOrderCodecSound();
    DecodeEncode(MatchTypes, MatchTypeName, m);
    DecodeEncode(LogicalOperators, LogicalOperatorName, o);
    DecodeEncode(DatePrecisions, DatePrecisionName, p);
    DecodeEncode(SortOrders, SortOrderName, s);
  }
}

=== FILE: filters.dfy ===
/** The filter expression tree: five kinds of leaf and a composite node that holds a
    logical operator over an ordered, mixed list of terms; and the And/Or combinators. */
module Filters {
  import opened Wrappers
  import opened EnumCodec
  import Dates

  /** The fixed value the empty / not-empty leaves carry. */
  const EmptySentinel: string := "0001-01-01T00:00:00"

  // The include flag is nullable on the string leaf and a plain boolean on the
  // multi-value leaf; Dafny needs a shared field name to have one type, so the two are
  // named `inclusion` and `inclusive`.
  datatype Filter =
    | StringFilter(canonicalName: string, matchType: MatchType, value: string,
                   inclusion: Option<bool> := None)
    | DateFilter(canonicalName: string, matchType: MatchType, value: string,
                 precision: DatePrecision := Day)
    | EmptyValueFilter(canonicalName: string)
    | NotEmptyValueFilter(canonicalName: string)
    | MultiValueFilter(canonicalName: string, values: seq<string>, inclusive: bool)
    | CompositeFilter(operator: LogicalOperator, terms: seq<Filter>)
  {
    predicate IsLeaf()
    {
      !CompositeFilter?
    }

    /** The match type every leaf carries; the empty, not-empty and multi-value leaves
        fix theirs at construction. */
    function MatchTypeOf(): MatchType
      requires IsLeaf()
    {
      match this
      case StringFilter(_, m, _, _) => m
      case DateFilter(_, m, _, _) => m
      case EmptyValueFilter(_) => IsEmpty
      case NotEmptyValueFilter(_) => IsNotEmpty
      case MultiValueFilter(_, _, _) => MultiValue
    }

    /** The single-string value of the leaves that carry one. */
    function ValueText(): string
      requires IsLeaf() && !MultiValueFilter?
    {
      match this
      case StringFilter(_, _, v, _) => v
      case DateFilter(_, _, v, _) => v
      case EmptyValueFilter(_) => EmptySentinel
      case NotEmptyValueFilter(_) => EmptySentinel
    }

    /** Combination under `op`. A leaf always builds a new two-term composite (and must
        be given a term). A composite ignores an absent term, appends the term when its
        operator is `op` (flattening), and otherwise becomes the first of two terms
        under `op` (nesting). */
    function Combine(op: LogicalOperator, other: Option<Filter>): (r: Filter)
      requires IsLeaf() ==> other.Some?
      ensures r.CompositeFilter?
      ensures other.Some? && (IsLeaf() || operator != op) ==>
                r.operator == op && r.terms == [this, other.value]
      ensures CompositeFilter? && other.Some? && operator == op ==>
                && r.operator == op
                && |r.terms| == |terms| + 1
                && r.terms[..|terms|] == terms
                && r.terms[|terms|] == other.value
      ensures CompositeFilter? && other.None? ==> r == this
    {
      match this
      case CompositeFilter(cop, ts) =>
        if other.None? then this
        else if cop == op then CompositeFilter(cop, ts + [other.value])
        else CompositeFilter(op, [this, other.value])
      case _ => CompositeFilter(op, [this, other.value])
    }

    function And(other: Option<Filter>): (r: Filter)
      requires IsLeaf() ==> other.Some?
      ensures r.CompositeFilter?
      ensures other.Some? && (IsLeaf() || operator != LogicalOperator.And) ==>
                r == CompositeFilter(LogicalOperator.And, [this, other.value])
      ensures CompositeFilter? && other.Some? && operator == LogicalOperator.And ==>
                r == CompositeFilter(LogicalOperator.And, terms + [other.value])
      ensures CompositeFilter? && other.None? ==> r == this
    {
      Combine(LogicalOperator.And, other)
    }

    function Or(other: Option<Filter>): (r: Filter)
      requires IsLeaf() ==> other.Some?
      ensures r.CompositeFilter?
      ensures other.Some? && (IsLeaf() || operator != LogicalOperator.Or) ==>
                r == CompositeFilter(LogicalOperator.Or, [this, other.value])
      ensures CompositeFilter? && other.Some? && operator == LogicalOperator.Or ==>
                r == CompositeFilter(LogicalOperator.Or, terms + [other.value])
      ensures CompositeFilter? && other.None? ==> r == this
    {
      Combine(LogicalOperator.Or, other)
    }
  }

  // ----- the leaf constructors -----
  // The string, date (over a formatted value), empty and not-empty leaves are built by
  // the datatype's own constructors, with the same defaults: no include flag, day
  // precision. The empty and not-empty leaves take only a name.

  /** A date filter over a calendar date: the value is the date formatted at the
      given precision. */
  function NewDateFilterFromDate(canonicalName: string, matchType: MatchType, date: Dates.Date,
                                 precision: DatePrecision := Day): (f: Filter)
    requires Dates.Valid(date)
    ensures f.DateFilter? && f.MatchTypeOf() == matchType && f.precision == precision
    ensures f.canonicalName == canonicalName
    ensures f.ValueText() == Dates.FormatDate(date, precision)
  {
    DateFilter(canonicalName, matchType, Dates.FormatDate(date, precision), precision)
  }

  /** A multi-value filter; an absent value list becomes the empty list and `inclusive`
      (the include flag) defaults to true. */
  function NewMultiValueFilter(canonicalName: string, values: Option<seq<string>>,
                               inclusive: bool := true): (f: Filter)
    ensures f.MultiValueFilter? && f.MatchTypeOf() == MultiValue
    ensures f.canonicalName == canonicalName && f.inclusive == inclusive
    ensures values.Some? ==> f.values == values.value
    ensures values.None? ==> f.values == []
  {
    MultiValueFilter(canonicalName, if values.Some? then values.value else [], inclusive)
  }

  /** A composite built directly; an absent term array gives no terms. */
  function NewCompositeFilter(op: LogicalOperator, terms: Option<seq<Filter>>): (f: Filter)
    ensures f.CompositeFilter? && f.operator == op
    ensures terms.Some? ==> f.terms == terms.value
    ensures terms.None? ==> f.terms == []
  {
    CompositeFilter(op, if terms.Some? then terms.value else [])
  }

  // ----- chains -----

  /** `first` combined under `op` with each of `rest` in turn, left to right. */
  function Chain(op: LogicalOperator, first: Filter, rest: seq<Filter>): Filter
  {
    if |rest| == 0 then first
    else Chain(op, first, rest[..|rest| - 1]).Combine(op, Some(rest[|rest| - 1]))
  }

  /** A same-operator chain starting from a leaf is one flat composite holding every
      term in insertion order: a.And(b).And(c) is And[a, b, c]. */
  lemma {:induction false} ChainFlattens(op: LogicalOperator, first: Filter, rest: seq<Filter>)
    requires first.IsLeaf()
    requires |rest| > 0
    ensures Chain(op, first, rest) == CompositeFilter(op, [first] + rest)
  {
    if |rest| > 1 {
      ChainFlattens(op, first, rest[..|rest| - 1]);
      assert [first] + rest[..|rest| - 1] + [rest[|rest| - 1]] == [first] + rest;
    }
  }

  /** Mixed operators always nest, never merge: a.And(b).Or(c) is Or[And[a, b], c], and
      a.Or(b).And(c) is And[Or[a, b], c]. */
  lemma MixedOperatorsNest(a: Filter, b: Filter, c: Filter)
    requires a.IsLeaf()
    ensures a.And(Some(b)).Or(Some(c)) ==
      CompositeFilter(LogicalOperator.Or, [CompositeFilter(LogicalOperator.And, [a, b]), c])
    ensures a.Or(Some(b)).And(Some(c)) ==
      CompositeFilter(LogicalOperator.And, [CompositeFilter(LogicalOperator.Or, [a, b]), c])
  {
  }
}

=== FILE: json.dfy ===
/** JSON values as the serializer produces them: objects as ordered key/value lists,
    arrays, strings and booleans. Text layout (indentation, escaping) is not represented. */
module Json {
  import opened Wrappers

  datatype Json =
    | JString(str: string)
    | JBool(b: bool)
    | JArray(items: seq<Json>)
    | JObject(members: seq<(string, Json)>)

  /** The position of the first member named `key`, if any. */
  function KeyIndex(members: seq<(string, Json)>, key: string): (r: Option<nat>)
    ensures r.Some? ==> r.value < |members| && members[r.value].0 == key
    ensures r.Some? ==> forall i :: 0 <= i < r.value ==> members[i].0 != key
    ensures r.None? <==> forall i :: 0 <= i < |members| ==> members[i].0 != key
  {
    if |members| == 0 then None
    else if members[0].0 == key then Some(0)
    else match KeyIndex(members[1..], key)
      case None => None
      case Some(i) => Some(i + 1)
  }

  /** The value of member `key` of an object (the first one, should there be several). */
  function Lookup(j: Json, key: string): Option<Json>
  {
    if !j.JObject? then None
    else match KeyIndex(j.members, key)
      case None => None
      case Some(i) => Some(j.members[i].1)
  }

  predicate HasKey(j: Json, key: string)
  {
    Lookup(j, key).Some?
  }

  /** The keys of an object's members, in order. */
  function KeysOf(members: seq<(string, Json)>): (ks: seq<string>)
    ensures |ks| == |members|
    ensures forall i :: 0 <= i < |members| ==> ks[i] == members[i].0
  {
    seq(|members|, i requires 0 <= i < |members| => members[i].0)
  }

  /** An object has a key exactly when one of its members carries it. */
  lemma HasKeyIff(j: Json, key: string)
    requires j.JObject?
    ensures HasKey(j, key) <==> key in KeysOf(j.members)
  {
    var ks := KeysOf(j.members);
    if key in ks {
      var i :| 0 <= i < |ks| && ks[i] == key;
      assert j.members[i].0 == key;
    }
  }

  /** No key occurs twice among an object's members. */
  predicate DistinctKeys(members: seq<(string, Json)>)
  {
    forall i, k :: 0 <= i < k < |members| ==> members[i].0 != members[k].0
  }

  /** An object whose members all carry one of the given keys. */
  predicate KeysWithin(j: Json, keys: set<string>)
  {
    j.JObject? && forall i :: 0 <= i < |j.members| ==> j.members[i].0 in keys
  }

  /** An object member that is written only when its value is present; an absent
      (null) value leaves the member out altogether. */
  function OptionalMember(key: string, v: Option<Json>): (ms: seq<(string, Json)>)
    ensures v.None? ==> ms == []
    ensures v.Some? ==> ms == [(key, v.value)]
  {
    if v.Some? then [(key, v.value)] else []
  }

  /** Looking the key up reads back exactly the value given: an absent (null) value and
      a missing member read the same. */
  lemma OptionalMemberReadsBack(key: string, v: Option<Json>)
    ensures Lookup(JObject(OptionalMember(key, v)), key) == v
  {
  }

  /** The member at position `i` is the one looked up when no earlier member has its key. */
  lemma LookupAt(members: seq<(string, Json)>, i: nat, key: string)
    requires i < |members| && members[i].0 == key
    requires forall k :: 0 <= k < i ==> members[k].0 != key
    ensures Lookup(JObject(members), key) == Some(members[i].1)
  {
  }
}

=== FILE: meaning.dfy ===
/** What a filter tree means to the system that evaluates it: a composite's terms are
    joined by its operator, and each leaf is decided by an oracle standing for the
    external comparison of one record field. The combinators must respect this meaning. */
module Meaning {
  import opened Wrappers
  import opened EnumCodec
  import opened Filters

  /** Whether a record whose leaf comparisons are decided by `leaf` satisfies `f`.
      An `And` composite needs every term, an `Or` composite needs some term. */
  predicate Holds(f: Filter, leaf: Filter -> bool)
    decreases f
  {
    match f
    case CompositeFilter(op, terms) =>
      if op == LogicalOperator.And then forall i :: 0 <= i < |terms| ==> Holds(terms[i], leaf)
      else exists i :: 0 <= i < |terms| && Holds(terms[i], leaf)
    case _ => leaf(f)
  }

  /** `f.And(x)` holds exactly when `f` holds and `x` (if present) holds. */
  lemma {:induction false} AndIsConjunction(f: Filter, x: Option<Filter>, leaf: Filter -> bool)
    requires f.IsLeaf() ==> x.Some?
    ensures Holds(f.And(x), leaf) <==> Holds(f, leaf) && (x.None? || Holds(x.value, leaf))
  {
    var r := f.And(x);
    if f.CompositeFilter? && x.Some? && f.operator == LogicalOperator.And {
      assert forall i :: 0 <= i < |f.terms| ==> r.terms[i] == f.terms[i];
      assert r.terms[|f.terms|] == x.value;
      if Holds(f, leaf) && Holds(x.value, leaf) {
        forall i | 0 <= i < |r.terms| ensures Holds(r.terms[i], leaf) {
          if i < |f.terms| {
            assert Holds(f.terms[i], leaf);
          }
        }
      }
      if Holds(r, leaf) {
        forall i | 0 <= i < |f.terms| ensures Holds(f.terms[i], leaf) {
          assert Holds(r.terms[i], leaf);
        }
        assert Holds(r.terms[|f.terms|], leaf);
      }
    } else if x.Some? && (f.IsLeaf() || f.operator != LogicalOperator.And) {
      assert r.terms[0] == f && r.terms[1] == x.value;
    }
  }

  /** `f.Or(x)` holds exactly when `f` holds or `x` (if present) holds. */
  lemma {:induction false} OrIsDisjunction(f: Filter, x: Option<Filter>, leaf: Filter -> bool)
    requires f.IsLeaf() ==> x.Some?
    ensures Holds(f.Or(x), leaf) <==> Holds(f, leaf) || (x.Some? && Holds(x.value, leaf))
  {
    var r := f.Or(x);
    if f.CompositeFilter? && x.Some? && f.operator == LogicalOperator.Or {
      assert forall i :: 0 <= i < |f.terms| ==> r.terms[i] == f.terms[i];
      assert r.terms[|f.terms|] == x.value;
      if Holds(r, leaf) {
        var i :| 0 <= i < |r.terms| && Holds(r.terms[i], leaf);
        if i < |f.terms| {
          assert Holds(f.terms[i], leaf);
        }
      }
      if Holds(f, leaf) {
        var i :| 0 <= i < |f.terms| && Holds(f.terms[i], leaf);
        assert Holds(r.terms[i], leaf);
      }
      if Holds(x.value, leaf) {
        assert Holds(r.terms[|f.terms|], leaf);
      }
    } else if x.Some? && (f.IsLeaf() || f.operator != LogicalOperator.Or) {
      assert r.terms[0] == f && r.terms[1] == x.value;
      if Holds(f, leaf) {
        assert Holds(r.terms[0], leaf);
      }
      if Holds(x.value, leaf) {
        assert Holds(r.terms[1], leaf);
      }
    }
  }
}

=== FILE: reader.dfy ===
/** Reading the wire format back. The library reads enumeration tokens but has no reader
    for filters or requests; this reader is the inverse the writer is checked against:
    what it recovers is exactly what the JSON determines about the filter and the
    request. */
module Reader {
  import opened Wrappers
  import opened EnumCodec
  import opened Filters
  import opened Request
  import opened Json
  import opened Serializer

  function StringAt(j: Json, key: string): Option<string>
  {
    match Lookup(j, key)
    case Some(JString(s)) => Some(s)
    case _ => None
  }

  function BoolAt(j: Json, key: string): Option<bool>
  {
    match Lookup(j, key)
    case Some(JBool(b)) => Some(b)
    case _ => None
  }

  /** The enumeration member named by the token under `key`. */
  function TokenAt<T>(j: Json, key: string, members: seq<T>, name: T -> string): Option<T>
  {
    match StringAt(j, key)
    case None => None
    case Some(token) =>
      match Decode(members, name, token)
      case Success(e) => Some(e)
      case Failure(_) => None
  }

  function ReadStrings(items: seq<Json>): Option<seq<string>>
  {
    if forall i :: 0 <= i < |items| ==> items[i].JString? then
      Some(seq(|items|, i requires 0 <= i < |items| && items[i].JString? => items[i].str))
    else None
  }

  /** A filter node from its object: a composite when it has `operator`, otherwise a
      leaf. */
  function ReadFilter(j: Json): Option<Filter>
    decreases j
  {
    if !j.JObject? then None
    else if HasKey(j, "operator") then
      var op :- TokenAt(j, "operator", LogicalOperators, LogicalOperatorName);
      match KeyIndex(j.members, "terms")
      case None => None
      case Some(i) =>
        match j.members[i].1
        case JArray(items) =>
          var parsed := seq(|items|, k requires 0 <= k < |items| => ReadFilter(items[k]));
          if forall k :: 0 <= k < |items| ==> parsed[k].Some? then
            Some(CompositeFilter(op, seq(|items|, k requires 0 <= k < |items| && parsed[k].Some? => parsed[k].value)))
          else None
        case _ => None
    else ReadLeaf(j)
  }

  /** A leaf from its object: a date leaf when it has `precision`, a multi-value leaf
      when its value is an array, and a string leaf when its value is a string. */
  function ReadLeaf(j: Json): Option<Filter>
  {
    var mt :- TokenAt(j, "matchType", MatchTypes, MatchTypeName);
    var name :- StringAt(j, "canonicalName");
    var value :- Lookup(j, "value");
    if HasKey(j, "precision") then
      var p :- TokenAt(j, "precision", DatePrecisions, DatePrecisionName);
      if value.JString? then Some(DateFilter(name, mt, value.str, p)) else None
    else if value.JArray? then
      var vs :- ReadStrings(value.items);
      var inc :- BoolAt(j, "include");
      if mt == MultiValue then Some(MultiValueFilter(name, vs, inc)) else None
    else if value.JString? then
      if HasKey(j, "include") && BoolAt(j, "include").None? then None
      else Some(StringFilter(name, mt, value.str, BoolAt(j, "include")))
    else None
  }

  /** The filter as the wire shows it: an empty or not-empty leaf writes the same
      members as a string leaf with the same match type, value and no include flag. */
  function WireForm(f: Filter): Filter
    decreases f
  {
    match f
    case EmptyValueFilter(n) => StringFilter(n, IsEmpty, EmptySentinel, None)
    case NotEmptyValueFilter(n) => StringFilter(n, IsNotEmpty, EmptySentinel, None)
    case CompositeFilter(op, ts) => CompositeFilter(op, seq(|ts|, i requires 0 <= i < |ts| => WireForm(ts[i])))
    case _ => f
  }

  /** No empty or not-empty leaf anywhere in the tree. */
  predicate NoSentinelLeaves(f: Filter)
    decreases f
  {
    match f
    case EmptyValueFilter(_) => false
    case NotEmptyValueFilter(_) => false
    case CompositeFilter(_, ts) => forall i :: 0 <= i < |ts| ==> NoSentinelLeaves(ts[i])
    case _ => true
  }

  lemma ReadStringArray(ss: seq<string>)
    ensures ReadStrings(StringArray(ss).items) == Some(ss)
  {
    var items := StringArray(ss).items;
    assert forall i :: 0 <= i < |items| ==> items[i].JString? && items[i].str == ss[i];
    var r := ReadStrings(items);
    assert r.Some? && |r.value| == |ss|;
    assert forall i :: 0 <= i < |ss| ==> r.value[i] == ss[i];
    assert r.value == ss;
  }

  /** A written enumeration token reads back as the member that was written. */
  lemma TokenReadsBack<T(!new)>(j: Json, key: string, members: seq<T>, name: T -> string, e: T)
    requires Lists(members) && NamesDistinct(name)
    requires Lookup(j, key) == Some(JString(Encode(name, e)))
    ensures TokenAt(j, key, members, name) == Some(e)
  {
    DecodeEncode(members, name, e);
  }

  /** The head every leaf shares reads back: its match type and its name. */
  lemma LeafHeadReadsBack(f: Filter)
    requires f.IsLeaf()
    ensures TokenAt(FilterToJson(f), "matchType", MatchTypes, MatchTypeName) == Some(f.MatchTypeOf())
    ensures StringAt(FilterToJson(f), "canonicalName") == Some(f.canonicalName)
    ensures !HasKey(FilterToJson(f), "operator")
    ensures HasKey(FilterToJson(f), "precision") <==> f.DateFilter?
  {
    LeafValues(f);
    CompositeMembers(f);
    OptionalMembers(f);
    MatchTypeCodecSound();
    TokenReadsBack(FilterToJson(f), "matchType", MatchTypes, MatchTypeName, f.MatchTypeOf());
  }

  lemma ReadWrittenDate(f: Filter)
    requires f.DateFilter?
    ensures ReadFilter(FilterToJson(f)) == Some(f)
  {
    LeafHeadReadsBack(f);
    LeafValues(f);
    DatePrecisionCodecSound();
    TokenReadsBack(FilterToJson(f), "precision", DatePrecisions, DatePrecisionName, f.precision);
  }

  lemma ReadWrittenMulti(f: Filter)
    requires f.MultiValueFilter?
    ensures ReadFilter(FilterToJson(f)) == Some(f)
  {
    LeafHeadReadsBack(f);
    LeafValues(f);
    ReadStringArray(f.values);
  }

  /** The reading of a leaf object without `operator` or `precision` whose value is a
      string. */
  lemma ReadStringShaped(j: Json, mt: MatchType, name: string, value: string)
    requires j.JObject?
    requires !HasKey(j, "operator") && !HasKey(j, "precision")
    requires TokenAt(j, "matchType", MatchTypes, MatchTypeName) == Some(mt)
    requires StringAt(j, "canonicalName") == Some(name)
    requires Lookup(j, "value") == Some(JString(value))
    ensures !HasKey(j, "include") ==> ReadFilter(j) == Some(StringFilter(name, mt, value, None))
    ensures BoolAt(j, "include").Some? ==>
              ReadFilter(j) == Some(StringFilter(name, mt, value, BoolAt(j, "include")))
  {
    assert ReadFilter(j) == ReadLeaf(j);
  }

  lemma ReadWrittenString(f: Filter)
    requires f.StringFilter? || f.EmptyValueFilter? || f.NotEmptyValueFilter?
    ensures ReadFilter(FilterToJson(f)) == Some(WireForm(f))
  {
    var j := FilterToJson(f);
    LeafHeadReadsBack(f);
    LeafValues(f);
    OptionalMembers(f);
    ReadStringShaped(j, f.MatchTypeOf(), f.canonicalName, f.ValueText());
    if f.StringFilter? && f.inclusion.Some? {
      assert BoolAt(j, "include") == f.inclusion;
    }
  }

  /** Reading a leaf's object gives the leaf back, as the wire shows it. */
  lemma ReadWrittenLeaf(f: Filter)
    requires f.IsLeaf()
    ensures ReadFilter(FilterToJson(f)) == Some(WireForm(f))
  {
    if f.DateFilter? {
      ReadWrittenDate(f);
    } else if f.MultiValueFilter? {
      ReadWrittenMulti(f);
    } else {
      ReadWrittenString(f);
    }
  }

  /** The reading of an object with `operator` whose `terms` member is an array of
      objects that each read back. */
  lemma ReadCompositeShaped(j: Json, op: LogicalOperator, items: seq<Json>, ts: seq<Filter>)
    requires j.JObject? && HasKey(j, "operator")
    requires TokenAt(j, "operator", LogicalOperators, LogicalOperatorName) == Some(op)
    requires Lookup(j, "terms") == Some(JArray(items))
    requires |items| == |ts|
    requires forall k :: 0 <= k < |items| ==> ReadFilter(items[k]) == Some(ts[k])
    ensures ReadFilter(j) == Some(CompositeFilter(op, ts))
  {
    var parsed := seq(|items|, k requires 0 <= k < |items| => ReadFilter(items[k]));
    var read := seq(|items|, k requires 0 <= k < |items| && parsed[k].Some? => parsed[k].value);
    assert read == ts;
  }

  /** A composite's object reads back once each of its terms' objects does. */
  lemma ReadWrittenComposite(f: Filter)
    requires f.CompositeFilter?
    requires forall k :: 0 <= k < |f.terms| ==>
               ReadFilter(FilterToJson(f.terms[k])) == Some(WireForm(f.terms[k]))
    ensures ReadFilter(FilterToJson(f)) == Some(WireForm(f))
  {
    var j := FilterToJson(f);
    var ts := f.terms;
    var items := TermsToJson(ts).items;
    CompositeMembers(f);
    CompositeValues(f);
    LogicalOperatorCodecSound();
    TokenReadsBack(j, "operator", LogicalOperators, LogicalOperatorName, f.operator);
    ReadCompositeShaped(j, f.operator, items, WireForm(f).terms);
  }

  /** Reading what was written gives the filter back, as the wire shows it: the only
      thing the wire loses is whether a leaf was built as an empty / not-empty leaf or
      as the string leaf it looks like. */
  lemma {:induction false} ReadWrittenFilter(f: Filter)
    ensures ReadFilter(FilterToJson(f)) == Some(WireForm(f))
    decreases f
  {
    if f.IsLeaf() {
      ReadWrittenLeaf(f);
    } else {
      forall k | 0 <= k < |f.terms|
        ensures ReadFilter(FilterToJson(f.terms[k])) == Some(WireForm(f.terms[k]))
      {
        ReadWrittenFilter(f.terms[k]);
      }
      ReadWrittenComposite(f);
    }
  }

  /** Rewriting sentinel leaves as the string leaves they look like changes nothing on
      the wire. */
  lemma {:induction false} WireFormKeepsWire(f: Filter)
    ensures FilterToJson(WireForm(f)) == FilterToJson(f)
    decreases f
  {
    if f.CompositeFilter? {
      var w := WireForm(f);
      forall k | 0 <= k < |f.terms|
        ensures FilterToJson(w.terms[k]) == FilterToJson(f.terms[k])
      {
        WireFormKeepsWire(f.terms[k]);
      }
      assert TermsToJson(w.terms) == TermsToJson(f.terms);
    }
  }

  /** A tree without sentinel leaves is its own wire form. */
  lemma {:induction false} WireFormWithoutSentinels(f: Filter)
    requires NoSentinelLeaves(f)
    ensures WireForm(f) == f
    decreases f
  {
    if f.CompositeFilter? {
      forall k | 0 <= k < |f.terms| ensures WireForm(f.terms[k]) == f.terms[k] {
        WireFormWithoutSentinels(f.terms[k]);
      }
      assert WireForm(f).terms == f.terms;
    }
  }

  /** Two filters written as the same JSON have the same wire form; without sentinel
      leaves they are the same filter. */
  lemma WireDeterminesFilter(a: Filter, b: Filter)
    requires FilterToJson(a) == FilterToJson(b)
    ensures WireForm(a) == WireForm(b)
    ensures NoSentinelLeaves(a) && NoSentinelLeaves(b) ==> a == b
  {
    ReadWrittenFilter(a);
    ReadWrittenFilter(b);
    if NoSentinelLeaves(a) && NoSentinelLeaves(b) {
      WireFormWithoutSentinels(a);
      WireFormWithoutSentinels(b);
    }
  }

  /** The fixed members of the empty, not-empty and multi-value leaves as the wire
      carries them: match type `isempty` / `isnotempty` with the sentinel value, and
      match type `multivalue` with the list and flag. */
  lemma FixedLeavesOnTheWire(name: string, values: seq<string>, inclusive: bool)
    ensures ReadFilter(FilterToJson(EmptyValueFilter(name)))
              == Some(StringFilter(name, IsEmpty, "0001-01-01T00:00:00", None))
    ensures ReadFilter(FilterToJson(NotEmptyValueFilter(name)))
              == Some(StringFilter(name, IsNotEmpty, "0001-01-01T00:00:00", None))
    ensures TokenAt(FilterToJson(MultiValueFilter(name, values, inclusive)), "matchType", MatchTypes, MatchTypeName)
              == Some(MultiValue)
  {
    ReadWrittenFilter(EmptyValueFilter(name));
    ReadWrittenFilter(NotEmptyValueFilter(name));
    LeafHeadReadsBack(MultiValueFilter(name, values, inclusive));
  }

  // ----- the request -----

  function ReadSortCriterion(j: Json): Option<SortCriterion>
  {
    var name :- StringAt(j, "canonicalName");
    var order :- TokenAt(j, "order", SortOrders, SortOrderName);
    Some(SortCriterion(name, order))
  }

  function ReadSort(items: seq<Json>): Option<seq<SortCriterion>>
  {
    var parsed := seq(|items|, k requires 0 <= k < |items| => ReadSortCriterion(items[k]));
    if forall k :: 0 <= k < |items| ==> parsed[k].Some? then
      Some(seq(|items|, k requires 0 <= k < |items| && parsed[k].Some? => parsed[k].value))
    else None
  }

  function ReadFilterMember(j: Json): Option<Option<Filter>>
  {
    match Lookup(j, "filter")
    case None => Some(None)
    case Some(fj) => (match ReadFilter(fj) case None => None case Some(f) => Some(Some(f)))
  }

  function ReadFieldsMember(j: Json): Option<seq<string>>
  {
    match Lookup(j, "fields")
    case None => Some([])
    case Some(JArray(items)) => ReadStrings(items)
    case Some(_) => None
  }

  function ReadSortMember(j: Json): Option<seq<SortCriterion>>
  {
    match Lookup(j, "sort")
    case None => Some([])
    case Some(JArray(items)) => ReadSort(items)
    case Some(_) => None
  }

  /** A request from its object; a missing `fields` or `sort` member is an empty list. */
  function ReadRequest(j: Json): Option<LoanPipelineRequest>
  {
    if !j.JObject? then None
    else
      var filter :- ReadFilterMember(j);
      var fields :- ReadFieldsMember(j);
      var sort :- ReadSortMember(j);
      var flag :- BoolAt(j, "includeArchivedLoans");
      Some(LoanPipelineRequest(filter, fields, sort, flag))
  }

  /** A written sort element reads back as the same criterion. */
  lemma ReadSortCriterionWritten(s: SortCriterion)
    ensures ReadSortCriterion(SortCriterionToJson(s)) == Some(s)
  {
    SortOrderCodecSound();
    TokenReadsBack(SortCriterionToJson(s), "order", SortOrders, SortOrderName, s.order);
  }

  lemma ReadSortWritten(sort: seq<SortCriterion>)
    ensures ReadSort(SortToJson(sort).items) == Some(sort)
  {
    var items := SortToJson(sort).items;
    SortOrderCodecSound();
    forall k | 0 <= k < |items| ensures ReadSortCriterion(items[k]) == Some(sort[k]) {
      ReadSortCriterionWritten(sort[k]);
    }
    var parsed := seq(|items|, k requires 0 <= k < |items| => ReadSortCriterion(items[k]));
    var read := seq(|items|, k requires 0 <= k < |items| && parsed[k].Some? => parsed[k].value);
    assert read == sort;
  }

  lemma ReadFilterMemberWritten(r: LoanPipelineRequest)
    ensures ReadFilterMember(RequestToJson(r))
              == Some(if r.filter.Some? then Some(WireForm(r.filter.value)) else None)
  {
    RequestMembers(r);
    if r.filter.Some? {
      ReadWrittenFilter(r.filter.value);
    }
  }

  lemma ReadListMembersWritten(r: LoanPipelineRequest)
    ensures ReadFieldsMember(RequestToJson(r)) == Some(r.fieldList)
    ensures ReadSortMember(RequestToJson(r)) == Some(r.sortList)
  {
    RequestMembers(r);
    if |r.fieldList| > 0 {
      ReadStringArray(r.fieldList);
    }
    if |r.sortList| > 0 {
      ReadSortWritten(r.sortList);
    }
  }

  /** Reading a written request gives the request back, its filter as the wire shows it. */
  lemma ReadWrittenRequest(r: LoanPipelineRequest)
    ensures ReadRequest(RequestToJson(r))
              == Some(r.(filter := if r.filter.Some? then Some(WireForm(r.filter.value)) else None))
  {
    RequestMembers(r);
    ReadFilterMemberWritten(r);
    ReadListMembersWritten(r);
  }
}

=== FILE: request.dfy ===
/** The loan-pipeline request envelope: an optional filter tree, the fields to return,
    at most one sort criterion, and whether archived loans are included. */
module Request {
  import opened Wrappers
  import opened EnumCodec
  import opened Filters

  datatype SortCriterion = SortCriterion(canonicalName: string, order: SortOrder)

  /** The stored members. The field and sort lists are never absent; an empty one is
      surfaced as absent by `Fields` and `Sort`. */
  datatype LoanPipelineRequest = LoanPipelineRequest(
    filter: Option<Filter>,
    fieldList: seq<string>,
    sortList: seq<SortCriterion>,
    includeArchivedLoans: bool)
  {
    /** The field list as the request exposes it: absent when there are no fields. */
    function Fields(): (r: Option<seq<string>>)
      ensures r.None? <==> |fieldList| == 0
      ensures r.Some? ==> r.value == fieldList && |r.value| > 0
    {
      if |fieldList| > 0 then Some(fieldList) else None
    }

    /** The sort list as the request exposes it: absent when there is no criterion. */
    function Sort(): (r: Option<seq<SortCriterion>>)
      ensures r.None? <==> |sortList| == 0
      ensures r.Some? ==> r.value == sortList && |r.value| > 0
    {
      if |sortList| > 0 then Some(sortList) else None
    }
  }

  /** The request's only constructor. An absent field array gives no fields; the sort
      list holds the one criterion given, or nothing. */
  function NewRequest(filter: Option<Filter>, fields: Option<seq<string>> := None,
                      sort: Option<SortCriterion> := None, includeArchived: bool := false)
    : (r: LoanPipelineRequest)
    ensures r.filter == filter
    ensures r.includeArchivedLoans == includeArchived
    ensures r.Fields().Some? <==> fields.Some? && |fields.value| > 0
    ensures r.Fields().Some? ==> r.Fields().value == fields.value
    ensures |r.sortList| <= 1
    ensures r.Sort().Some? <==> sort.Some?
    ensures sort.Some? ==> r.Sort().value == [sort.value]
  {
    LoanPipelineRequest(
      filter,
      if fields.Some? then fields.value else [],
      if sort.Some? then [sort.value] else [],
      includeArchived)
  }
}

=== FILE: scenarios.dfy ===
/** The demonstration request of the console program, with the run date fixed to
    15 January 2025 (its date filters are that day plus 0, 14, 28 and 30 days). */
module Scenarios {
  import opened Wrappers
  import opened EnumCodec
  import opened Dates
  import opened Filters
  import opened Request
  import opened Json
  import opened Serializer
  import Text

  /** Whatever the leaves, the demo's combination is one flat `And` composite whose
      fourth term is the whole `Or` composite of the three date leaves, unmerged. */
  lemma DemoCombination(f1: Filter, f2: Filter, f3: Filter, f4: Filter, f5: Filter,
                        f6: Filter, f7: Filter, f8: Filter)
    requires f1.IsLeaf() && f4.IsLeaf()
    ensures f4.Or(Some(f6)).Or(Some(f5)) == CompositeFilter(LogicalOperator.Or, [f4, f6, f5])
    ensures f1.And(Some(f2)).And(Some(f3)).And(Some(f4.Or(Some(f6)).Or(Some(f5))))
              .And(Some(f7)).And(Some(f8))
            == CompositeFilter(LogicalOperator.And,
                 [f1, f2, f3, CompositeFilter(LogicalOperator.Or, [f4, f6, f5]), f7, f8])
  {
    var dateFilter := f4.Or(Some(f6)).Or(Some(f5));
    ChainFlattens(LogicalOperator.Or, f4, [f6, f5]);
    ChainFlattens(LogicalOperator.And, f1, [f2, f3, dateFilter, f7, f8]);
  }

  lemma DemoYearText()
    ensures Valid(Date(2025, 1, 15))
    ensures YearText(Date(2025, 1, 15)) == "2025"
  {
    assert Padded(2, 1) == "2";
    assert Padded(20, 2) == "20";
    assert Padded(202, 3) == "202";
  }

  lemma DemoMonthDayText()
    ensures Valid(Date(2025, 1, 15))
    ensures MonthText(Date(2025, 1, 15)) == "01"
    ensures DayText(Date(2025, 1, 15)) == "15"
  {
    assert Padded(0, 1) == "0";
    assert Padded(1, 1) == "1";
  }

  lemma DemoMonthFormat()
    ensures Valid(Date(2025, 1, 15))
    ensures MonthFormat(Date(2025, 1, 15)) == "2025-01"
  {
    DemoYearText();
    DemoMonthDayText();
  }

  lemma DemoDayFormat()
    ensures Valid(Date(2025, 1, 15))
    ensures DayFormat(Date(2025, 1, 15)) == "2025-01-15"
  {
    DemoMonthFormat();
    DemoMonthDayText();
  }

  /** The demo's date leaf for 15 January 2025 carries the text `2025-01-15`. */
  lemma DemoDateText()
    ensures Valid(Date(2025, 1, 15))
    ensures NewDateFilterFromDate("Fields.CreatedDate", Equals, Date(2025, 1, 15), Day).value
              == "2025-01-15"
  {
    DemoDayFormat();
  }

  /** The demo's request, written out, whatever its combined filter: a filter, the two
      fields, no sort member, and archived loans included. */
  lemma DemoRequest(combined: Filter)
    ensures var j := RequestToJson(NewRequest(Some(combined), Some(["Fields.LoanNumber", "Fields.Status"]),
                                              None, true));
            && Lookup(j, "filter") == Some(FilterToJson(combined))
            && Lookup(j, "fields") == Some(JArray([JString("Fields.LoanNumber"), JString("Fields.Status")]))
            && !HasKey(j, "sort")
            && Lookup(j, "includeArchivedLoans") == Some(JBool(true))
  {
    NewRequestOnTheWire(Some(combined), Some(["Fields.LoanNumber", "Fields.Status"]), None, true);
    assert StringArray(["Fields.LoanNumber", "Fields.Status"]).items
             == [JString("Fields.LoanNumber"), JString("Fields.Status")];
  }

  /** The string leaf of the demo, built with the default (absent) include flag, writes
      exactly the keys `matchType`, `canonicalName` and `value`, in some order. */
  lemma DemoStringLeafKeys()
    ensures StringFilter("Fields.Status", Equals, "Active").inclusion.None?
    ensures var j := FilterToJson(StringFilter("Fields.Status", Equals, "Active"));
            && multiset(KeysOf(j.members)) == multiset{"matchType", "canonicalName", "value"}
            && !HasKey(j, "include")
  {
    var f := StringFilter("Fields.Status", Equals, "Active");
    WrittenKeysAre(f);
    OptionalMembers(f);
  }

  /** ... holding match type `equals`, its name and its value. */
  lemma DemoStringLeaf()
    ensures var j := FilterToJson(StringFilter("Fields.Status", Equals, "Active"));
            && Lookup(j, "matchType") == Some(JString("equals"))
            && Lookup(j, "canonicalName") == Some(JString("Fields.Status"))
            && Lookup(j, "value") == Some(JString("Active"))
  {
    LeafValues(StringFilter("Fields.Status", Equals, "Active"));
    assert MatchTypeToken(Equals) == "equals";
  }

  /** `MultiValue` goes on the wire as `multivalue`: lower-cased, no separator. */
  lemma MultiValueToken()
    ensures MatchTypeToken(MultiValue) == "multivalue"
  {
    LowerMultiValue();
    assert MatchTypeName(MultiValue) == "MultiValue";
  }

  lemma LowerMultiValue()
    ensures Text.Lower("MultiValue") == "multivalue"
  {
    var a, b := ['M'] + "ulti", ['V'] + "alue";
    assert Text.Lower(a) == "multi" by {
      Text.LowerCapitalised('M', "ulti");
      assert Text.LowerChar('M') == 'm';
    }
    assert Text.Lower(b) == "value" by {
      Text.LowerCapitalised('V', "alue");
      assert Text.LowerChar('V') == 'v';
    }
    assert "MultiValue" == a + b;
    Text.LowerConcat(a, b);
    assert "multi" + "value" == "multivalue";
  }

  /** The multi-value leaf of the demo is written with match type `multivalue` and
      `include` false. */
  lemma DemoMultiValueLeaf()
    ensures var j := FilterToJson(NewMultiValueFilter("Fields.States", Some(["CA", "TX", "NY"]), false));
            && Lookup(j, "matchType") == Some(JString("multivalue"))
            && Lookup(j, "include") == Some(JBool(false))
  {
    var f := NewMultiValueFilter("Fields.States", Some(["CA", "TX", "NY"]), false);
    LeafValues(f);
    MultiValueToken();
  }

  /** ... and with the three states as an array, in the order given. */
  lemma DemoMultiValueStates()
    ensures var j := FilterToJson(NewMultiValueFilter("Fields.States", Some(["CA", "TX", "NY"]), false));
            Lookup(j, "value") == Some(JArray([JString("CA"), JString("TX"), JString("NY")]))
  {
    var vs := ["CA", "TX", "NY"];
    var items := [JString("CA"), JString("TX"), JString("NY")];
    var f := NewMultiValueFilter("Fields.States", Some(vs), false);
    assert f == MultiValueFilter("Fields.States", vs, false);
    assert StringArray(vs) == JArray(items) by {
      var a := StringArray(vs);
      assert a.items[0] == items[0] && a.items[1] == items[1] && a.items[2] == items[2];
    }
    var ms := FilterToJson(f).members;
    assert ms[2] == ("value", JArray(items));
    LookupAt(ms, 2, "value");
  }
}

=== FILE: serializer.dfy ===
/** Writing filters and requests out as JSON values: one object per node, enum members
    as lower-case tokens, null members left out. */
module Serializer {
  import opened Wrappers
  import opened EnumCodec
  import opened Filters
  import opened Request
  import opened Json

  function MatchTypeToken(m: MatchType): string { Encode(MatchTypeName, m) }
  function OperatorToken(o: LogicalOperator): string { Encode(LogicalOperatorName, o) }
  function PrecisionToken(p: DatePrecision): string { Encode(DatePrecisionName, p) }
  function OrderToken(s: SortOrder): string { Encode(SortOrderName, s) }

  function StringArray(ss: seq<string>): (j: Json)
    ensures j.JArray? && |j.items| == |ss|
    ensures forall i :: 0 <= i < |ss| ==> j.items[i] == JString(ss[i])
  {
    JArray(seq(|ss|, i requires 0 <= i < |ss| => JString(ss[i])))
  }

  /** The members every leaf writes first: its match type and its canonical name. */
  function LeafHead(f: Filter): seq<(string, Json)>
    requires f.IsLeaf()
  {
    [("matchType", JString(MatchTypeToken(f.MatchTypeOf()))), ("canonicalName", JString(f.canonicalName))]
  }

  /** The JSON object of a filter node; a composite holds its terms' objects in order. */
  function FilterToJson(f: Filter): (j: Json)
    decreases f
    ensures j.JObject? && DistinctKeys(j.members)
  {
    match f
    case StringFilter(_, _, v, inc) =>
      JObject(LeafHead(f) + [("value", JString(v))]
              + OptionalMember("include", if inc.Some? then Some(JBool(inc.value)) else None))
    case DateFilter(_, _, v, p) =>
      JObject(LeafHead(f) + [("value", JString(v)), ("precision", JString(PrecisionToken(p)))])
    case EmptyValueFilter(_) =>
      JObject(LeafHead(f) + [("value", JString(f.ValueText()))])
    case NotEmptyValueFilter(_) =>
      JObject(LeafHead(f) + [("value", JString(f.ValueText()))])
    case MultiValueFilter(_, vs, inc) =>
      JObject(LeafHead(f) + [("value", StringArray(vs)), ("include", JBool(inc))])
    case CompositeFilter(op, terms) =>
      JObject([("operator", JString(OperatorToken(op))), ("terms", TermsToJson(terms))])
  }

  function TermsToJson(terms: seq<Filter>): (j: Json)
    decreases terms
    ensures j.JArray? && |j.items| == |terms|
  {
    JArray(seq(|terms|, i requires 0 <= i < |terms| => FilterToJson(terms[i])))
  }

  /** A sort element: exactly its name and its lower-cased order token. */
  function SortCriterionToJson(s: SortCriterion): (j: Json)
    ensures KeysWithin(j, {"canonicalName", "order"}) && DistinctKeys(j.members)
    ensures Lookup(j, "canonicalName") == Some(JString(s.canonicalName))
    ensures Lookup(j, "order") == Some(JString(OrderToken(s.order)))
  {
    var ms := [("canonicalName", JString(s.canonicalName)), ("order", JString(OrderToken(s.order)))];
    LookupAt(ms, 1, "order");
    JObject(ms)
  }

  function SortToJson(sort: seq<SortCriterion>): (j: Json)
    ensures j.JArray? && |j.items| == |sort|
  {
    JArray(seq(|sort|, i requires 0 <= i < |sort| => SortCriterionToJson(sort[i])))
  }

  /** The request object: `filter`, `fields` and `sort` only when present (an empty
      list counts as absent), `includeArchivedLoans` always. */
  function RequestToJson(r: LoanPipelineRequest): (j: Json)
    ensures KeysWithin(j, {"filter", "fields", "sort", "includeArchivedLoans"})
    ensures DistinctKeys(j.members)
  {
    JObject(
      OptionalMember("filter", if r.filter.Some? then Some(FilterToJson(r.filter.value)) else None)
      + OptionalMember("fields", if r.Fields().Some? then Some(StringArray(r.Fields().value)) else None)
      + OptionalMember("sort", if r.Sort().Some? then Some(SortToJson(r.Sort().value)) else None)
      + [("includeArchivedLoans", JBool(r.includeArchivedLoans))])
  }

  // ----- presence and omission laws -----

  /** The keys a filter node writes, in order. */
  function WrittenKeys(f: Filter): seq<string>
  {
    match f
    case StringFilter(_, _, _, inc) =>
      ["matchType", "canonicalName", "value"] + (if inc.Some? then ["include"] else [])
    case DateFilter(_, _, _, _) => ["matchType", "canonicalName", "value", "precision"]
    case EmptyValueFilter(_) => ["matchType", "canonicalName", "value"]
    case NotEmptyValueFilter(_) => ["matchType", "canonicalName", "value"]
    case MultiValueFilter(_, _, _) => ["matchType", "canonicalName", "value", "include"]
    case CompositeFilter(_, _) => ["operator", "terms"]
  }

  /** A filter's object has a key exactly when the key is among its written keys. */
  lemma HasWrittenKey(f: Filter, key: string)
    ensures HasKey(FilterToJson(f), key) <==> key in WrittenKeys(f)
  {
    WrittenKeysAre(f);
    HasKeyIff(FilterToJson(f), key);
  }

  lemma WrittenKeysAre(f: Filter)
    ensures KeysOf(FilterToJson(f).members) == WrittenKeys(f)
  {
    var j := FilterToJson(f);
    if f.StringFilter? && f.inclusion.None? {
      assert j.members == LeafHead(f) + [("value", JString(f.value))];
    }
  }

  /** Every leaf, and only a leaf, writes its match type, name and value. */
  lemma LeafMembers(f: Filter)
    ensures HasKey(FilterToJson(f), "matchType") <==> f.IsLeaf()
    ensures HasKey(FilterToJson(f), "canonicalName") <==> f.IsLeaf()
    ensures HasKey(FilterToJson(f), "value") <==> f.IsLeaf()
  {
    HasWrittenKey(f, "matchType");
    HasWrittenKey(f, "canonicalName");
    HasWrittenKey(f, "value");
  }

  /** `include` is written for a multi-value leaf always and for a string leaf only
      when its flag is set (a null flag is left out); `precision` exactly on date leaves. */
  lemma OptionalMembers(f: Filter)
    ensures HasKey(FilterToJson(f), "include") <==> (f.StringFilter? && f.inclusion.Some?) || f.MultiValueFilter?
    ensures HasKey(FilterToJson(f), "precision") <==> f.DateFilter?
  {
    HasWrittenKey(f, "include");
    HasWrittenKey(f, "precision");
  }

  /** A composite, and only a composite, writes `operator` and `terms`. */
  lemma CompositeMembers(f: Filter)
    ensures HasKey(FilterToJson(f), "operator") <==> f.CompositeFilter?
    ensures HasKey(FilterToJson(f), "terms") <==> f.CompositeFilter?
  {
    HasWrittenKey(f, "operator");
    HasWrittenKey(f, "terms");
  }

  /** The request object's members in order: the optional ones, then the flag. */
  lemma RequestLayout(r: LoanPipelineRequest)
    ensures var ms := RequestToJson(r).members;
      var nf := if r.filter.Some? then 1 else 0;
      var nd := if |r.fieldList| > 0 then 1 else 0;
      var ns := if |r.sortList| > 0 then 1 else 0;
      && |ms| == nf + nd + ns + 1
      && (r.filter.Some? ==> ms[0] == ("filter", FilterToJson(r.filter.value)))
      && (nd == 1 ==> ms[nf] == ("fields", StringArray(r.fieldList)))
      && (ns == 1 ==> ms[nf + nd] == ("sort", SortToJson(r.sortList)))
      && ms[nf + nd + ns] == ("includeArchivedLoans", JBool(r.includeArchivedLoans))
  {
  }

  /** Which members a request writes: `filter` when there is a filter, `fields` when
      the field list is non-empty, `sort` when the sort list is non-empty, and
      `includeArchivedLoans` always, each holding the request's own data. */
  lemma RequestMembers(r: LoanPipelineRequest)
    ensures HasKey(RequestToJson(r), "filter") <==> r.filter.Some?
    ensures r.filter.Some? ==> Lookup(RequestToJson(r), "filter") == Some(FilterToJson(r.filter.value))
    ensures HasKey(RequestToJson(r), "fields") <==> |r.fieldList| > 0
    ensures |r.fieldList| > 0 ==> Lookup(RequestToJson(r), "fields") == Some(StringArray(r.fieldList))
    ensures HasKey(RequestToJson(r), "sort") <==> |r.sortList| > 0
    ensures |r.sortList| > 0 ==> Lookup(RequestToJson(r), "sort") == Some(SortToJson(r.sortList))
    ensures Lookup(RequestToJson(r), "includeArchivedLoans") == Some(JBool(r.includeArchivedLoans))
  {
    var j := RequestToJson(r);
    var ms := j.members;
    RequestLayout(r);
    var nf := if r.filter.Some? then 1 else 0;
    var nd := if |r.fieldList| > 0 then 1 else 0;
    var ns := if |r.sortList| > 0 then 1 else 0;
    LookupAt(ms, nf + nd + ns, "includeArchivedLoans");
    if r.filter.Some? {
      LookupAt(ms, 0, "filter");
    } else {
      HasKeyIff(j, "filter");
    }
    if nd == 1 {
      LookupAt(ms, nf, "fields");
    } else {
      HasKeyIff(j, "fields");
    }
    if ns == 1 {
      LookupAt(ms, nf + nd, "sort");
    } else {
      HasKeyIff(j, "sort");
    }
  }

  /** The members a leaf writes, with their values. */
  lemma LeafValues(f: Filter)
    requires f.IsLeaf()
    ensures Lookup(FilterToJson(f), "matchType") == Some(JString(MatchTypeToken(f.MatchTypeOf())))
    ensures Lookup(FilterToJson(f), "canonicalName") == Some(JString(f.canonicalName))
    ensures !f.MultiValueFilter? ==> Lookup(FilterToJson(f), "value") == Some(JString(f.ValueText()))
    ensures f.MultiValueFilter? ==> Lookup(FilterToJson(f), "value") == Some(StringArray(f.values))
    ensures f.MultiValueFilter? ==> Lookup(FilterToJson(f), "include") == Some(JBool(f.inclusive))
    ensures f.StringFilter? && f.inclusion.Some? ==>
              Lookup(FilterToJson(f), "include") == Some(JBool(f.inclusion.value))
    ensures f.DateFilter? ==> Lookup(FilterToJson(f), "precision") == Some(JString(PrecisionToken(f.precision)))
  {
    var ms := FilterToJson(f).members;
    LookupAt(ms, 0, "matchType");
    LookupAt(ms, 1, "canonicalName");
    LookupAt(ms, 2, "value");
    if |ms| > 3 {
      LookupAt(ms, 3, ms[3].0);
    }
  }

  /** The members a composite writes, with their values. */
  lemma CompositeValues(f: Filter)
    requires f.CompositeFilter?
    ensures Lookup(FilterToJson(f), "operator") == Some(JString(OperatorToken(f.operator)))
    ensures Lookup(FilterToJson(f), "terms") == Some(TermsToJson(f.terms))
  {
    var ms := FilterToJson(f).members;
    LookupAt(ms, 0, "operator");
    LookupAt(ms, 1, "terms");
  }

  /** On the wire, flattening appends the new term's object to the `terms` array and
      leaves the earlier objects in place; nesting writes the old composite whole as the
      first of two terms. */
  /** An empty list inside a filter is never null, so it is written as an empty array
      rather than left out. */
  lemma EmptyListsWritten(name: string, inclusive: bool, op: LogicalOperator)
    ensures Lookup(FilterToJson(MultiValueFilter(name, [], inclusive)), "value") == Some(JArray([]))
    ensures Lookup(FilterToJson(CompositeFilter(op, [])), "terms") == Some(JArray([]))
  {
    LeafValues(MultiValueFilter(name, [], inclusive));
    CompositeValues(CompositeFilter(op, []));
  }

  lemma CombineOnTheWire(c: Filter, op: LogicalOperator, x: Filter)
    requires c.CompositeFilter?
    ensures c.operator == op ==>
      Lookup(FilterToJson(c.Combine(op, Some(x))), "terms")
        == Some(JArray(TermsToJson(c.terms).items + [FilterToJson(x)]))
    ensures c.operator != op ==>
      Lookup(FilterToJson(c.Combine(op, Some(x))), "terms")
        == Some(JArray([FilterToJson(c), FilterToJson(x)]))
    ensures Lookup(FilterToJson(c.Combine(op, Some(x))), "operator") == Some(JString(OperatorToken(op)))
  {
    var r := c.Combine(op, Some(x));
    CompositeValues(r);
    if c.operator == op {
      assert r.terms == c.terms + [x];
      assert TermsToJson(r.terms).items == TermsToJson(c.terms).items + [FilterToJson(x)];
    } else {
      assert TermsToJson(r.terms).items == [FilterToJson(c), FilterToJson(x)];
    }
  }

  /** The request constructor on the wire: `filter` only for a filter, `fields` only for
      a non-empty field array, `sort` only for a criterion (then a one-element array),
      and `includeArchivedLoans` always, holding the flag given. */
  lemma NewRequestOnTheWire(filter: Option<Filter>, fields: Option<seq<string>>,
                            sort: Option<SortCriterion>, includeArchived: bool)
    ensures HasKey(RequestToJson(NewRequest(filter, fields, sort, includeArchived)), "filter") <==>
              filter.Some?
    ensures HasKey(RequestToJson(NewRequest(filter, fields, sort, includeArchived)), "fields") <==>
              fields.Some? && |fields.value| > 0
    ensures fields.Some? && |fields.value| > 0 ==>
              Lookup(RequestToJson(NewRequest(filter, fields, sort, includeArchived)), "fields")
                == Some(StringArray(fields.value))
    ensures HasKey(RequestToJson(NewRequest(filter, fields, sort, includeArchived)), "sort") <==>
              sort.Some?
    ensures sort.Some? ==>
              Lookup(RequestToJson(NewRequest(filter, fields, sort, includeArchived)), "sort")
                == Some(JArray([SortCriterionToJson(sort.value)]))
    ensures Lookup(RequestToJson(NewRequest(filter, fields, sort, includeArchived)), "includeArchivedLoans")
              == Some(JBool(includeArchived))
  {
    var r := NewRequest(filter, fields, sort, includeArchived);
    RequestMembers(r);
    if sort.Some? {
      assert SortToJson(r.sortList).items == [SortCriterionToJson(sort.value)];
    }
  }
}

=== FILE: text.dfy ===
/** Character-level text helpers: invariant lower-casing and case-insensitive comparison. */
module Text {

  /** Invariant lower-casing of one character. Only ASCII upper-case letters change. */
  function LowerChar(c: char): char
  {
    if 'A' <= c <= 'Z' then (c as int - 'A' as int + 'a' as int) as char else c
  }

  predicate IsUpperChar(c: char)
  {
    'A' <= c <= 'Z'
  }

  /** A string with no upper-case letter in it. */
  predicate IsLowerCase(s: string)
  {
    forall i :: 0 <= i < |s| ==> !IsUpperChar(s[i])
  }

  /** The whole string lower-cased, one character at a time. */
  function Lower(s: string): (r: string)
    ensures |r| == |s|
    ensures forall i :: 0 <= i < |s| ==> r[i] == LowerChar(s[i])
  {
    if |s| == 0 then [] else [LowerChar(s[0])] + Lower(s[1..])
  }

  /** Ordinal comparison that ignores the case of letters. */
  predicate EqualsIgnoreCase(a: string, b: string)
  {
    Lower(a) == Lower(b)
  }

  /** Lower-casing leaves no upper-case letter and does not change a string's
      case-insensitive identity; doing it twice is doing it once. */
  lemma LowerProperties(s: string)
    ensures IsLowerCase(Lower(s))
    ensures Lower(Lower(s)) == Lower(s)
    ensures EqualsIgnoreCase(Lower(s), s)
  {
    assert forall i :: 0 <= i < |s| ==> Lower(Lower(s))[i] == Lower(s)[i];
  }

  /** A lower-case string is its own lower-cased form. */
  lemma LowerOfLowerCase(s: string)
    requires IsLowerCase(s)
    ensures Lower(s) == s
  {
    assert forall i :: 0 <= i < |s| ==> Lower(s)[i] == s[i];
  }

  /** Lower-casing works piecewise over a concatenation. */
  lemma LowerConcat(a: string, b: string)
    ensures Lower(a + b) == Lower(a) + Lower(b)
  {
    assert forall i :: 0 <= i < |a + b| ==> Lower(a + b)[i] == (Lower(a) + Lower(b))[i];
  }

  /** A capitalised word lower-cases to its lower-cased initial followed by the rest. */
  lemma LowerCapitalised(c: char, s: string)
    requires IsLowerCase(s)
    ensures Lower([c] + s) == [LowerChar(c)] + s
  {
    LowerOfLowerCase(s);
    assert ([c] + s)[1..] == s;
  }

  /** Strings equal ignoring case have the same length and the same first letter
      up to case. */
  lemma EqualsIgnoreCaseShape(a: string, b: string)
    requires EqualsIgnoreCase(a, b)
    ensures |a| == |b|
    ensures |a| > 0 ==> LowerChar(a[0]) == LowerChar(b[0])
  {
    if |a| > 0 {
      assert Lower(a)[0] == Lower(b)[0];
    }
  }
}

=== FILE: wrappers.dfy ===
/** Optional values (a C# `null` or a present value) and results with an error. */
module Wrappers {

  /** A value that may be absent; stands for a nullable reference in the source. */
  datatype Option<+T> = None | Some(value: T) {

    predicate IsFailure() {
      None?
    }

    function PropagateFailure<U>(): Option<U>
      requires None?
    {
      None
    }

    function Extract(): T
      requires Some?
    {
      value
    }
  }

  /** The outcome of an operation that can fail with an error value. */
  datatype Result<+R, +E> = Success(value: R) | Failure(error: E) {

    predicate IsFailure() {
      Failure?
    }

    function PropagateFailure<U>(): Result<U, E>
      requires Failure?
    {
      Failure(error)
    }

    function Extract(): R
      requires Success?
    {
      value
    }
  }
}
